=== FILE: README.md ===
# Debate turn coordination — a Dafny model

This project models the core of a multi-agent debate runner. An introducer, two
debaters, a mediator and a judge take turns. The model covers the
turn-coordination and termination protocol and the event stream around it:

- the shared workflow state;
- `track_turn`, which bumps a debater's counter and marks them as current speaker;
- `check_debate_status`, which turns the state into one of three directives:
  report missing state, hand off to the judge, or hand back to the current speaker;
- the four recording tools and the logging tool, which append typed events to the stream;
- the TTS parameter lookup and the early-return guard of the speech helper;
- settings resolution, the initial state and the assembly of the five agents,
  with their tool sets and hand-off targets.

Everything is a pure function over immutable values. The Python `Context` state
is a `State` record that is passed in and returned. The event stream is a
sequence of effects. Each effect is either an append to the stream or a speech
request. A Python dictionary key that is missing reads as `""` wherever the
source does `str(get(k, ""))`. The model stores `""` in that case. A missing
`total_rounds` is `None` and reads as 1.

Modules (one file each): `Wrappers`, `Text` (Python `strip` and `split(' ')`),
`Decimal` (Python `str(int)`), `Events`, `DebateState`, `DebateTools`, `Rounds`
(sequences of tracked turns), `Tts`, `Recording`, `Logging`, `Agents`, `Setup`,
`Protocol` (all tools as one machine over state and stream), `Scenarios`.

The model follows the code on these points, which its comments and names do not make obvious:

- The round budget is not required to be positive. A command-line override of 0
  (or a negative number) is taken as given.
- The bound `turns[p] <= total_rounds + 1` is not enforced by the code. It is
  proved (`Rounds.RoundBound`) only under the mediator protocol: the mediator
  checks the status after every tracked turn, and tracks no further turn once
  that check says to hand off to the judge.
- Turn tracking accepts any name, not only the two debaters. An unknown name
  gets a fresh counter.
- The judgment's `winner` is free text and is never checked against the debaters.
- The next speaker is not chosen by the code. The continuation directive names
  the speaker who was just tracked, and alternation is left to the mediator.
- A debater whose name is `"none"` or empty is indistinguishable from "nobody
  has spoken yet". After such a debater's turn, every status check reports
  missing state until another name is tracked. The model keeps this behaviour. The round bound assumes only
  that a tracked debater name is neither. Other names, `""` and `"none"`
  included, may be tracked: they are no debater, so they leave both counters
  unchanged.

## Model

| member | source | states |
|---|---|---|
| DebateTools.TrackTurn | tools/debate_tools.py:14-28 | The tracked speaker's counter goes up by exactly one, and a missing counter is seeded so that it becomes 1. The speaker becomes current. Every other counter, the budget, the names, theme, rules and TTS settings are unchanged. The counter keys are the old keys plus the speaker. |
| DebateTools.TrackReplyReportsStoredCount | tools/debate_tools.py:30-31 | The count quoted in the confirmation text reads back as exactly the count now stored for that speaker. |
| DebateTools.CheckStatus | tools/debate_tools.py:34-61 | Missing state is reported iff a debater name is empty or the current speaker is empty or "none"; this test overrides the round test. Otherwise it hands off to the judge iff either debater's counter (missing = 0) exceeds the budget (missing = 1). Otherwise it hands back to the current speaker. The three cases are exhaustive and exclusive. |
| DebateTools.RenderRoundTrip | tools/debate_tools.py:48-61 | Each directive's exact `ACTION: ...` text reads back as that directive, so the three kinds of text never collide. |
| DebateTools.CheckAfterTrack | tools/debate_tools.py:44-61 | Right after a real speaker is tracked and both debaters are named, the check either escalates (iff a counter is past the budget) or names that same speaker. |
| Rounds.TrackAllCounts | tools/debate_tools.py:22-27 | After any sequence of tracked turns, each counter equals its start value plus the number of times that name was tracked. |
| Rounds.TrackAllFrame | tools/debate_tools.py:19-28 | Any sequence of tracked turns leaves the settings unchanged. The current speaker is the last name tracked, or unchanged if none was tracked. |
| Rounds.RoundBound | tools/debate_tools.py:54-58 | Suppose the debaters are named, the counters start within budget, and the mediator checks the status after every tracked turn and tracks no further turn once that check says to hand off to the judge. Suppose also that whenever a debater's name is tracked it is neither `""` nor `"none"`; any other name may be tracked. Then no debater's counter exceeds `total_rounds + 1`. |
| Rounds.WithinBudgetBeforeLast | tools/debate_tools.py:14-61 | Under the same conditions, the state from which the mediator tracks its latest turn has no counter past the budget. |
| Rounds.EscalationIsStable | tools/debate_tools.py:57-58 | Once a counter is past the budget it stays past it, whatever is tracked next. |
| Events.EventTypeIdentifiesKind | events.py:6-39 | The five event kinds carry pairwise distinct `event_type` tags: two events share a tag iff they are of the same kind. |
| Events.TranscriptAppend | main.py:179-190 | Observing the stream in two parts observes each part once, in order: nothing is dropped, duplicated or reordered. |
| Tts.ParamsFor | utils/tts_utils.py:24-31 | The model is the configured one, or "gpt-4o-mini-tts" when the model or the whole `tts_config` is missing. The voice is the agent's configured voice, or "alloy" when there is none. |
| Tts.ShouldSpeakIffVisibleText | utils/tts_utils.py:40-41 | A speech request is made iff a client exists and the text has a character that `strip()` would not remove. |
| Text.BlankIffAllSpace | utils/tts_utils.py:40 | `text.strip()` is empty iff every character is Python whitespace. |
| Text.JoinSplit | agents/opponent_agents.py:24 | `split(' ')` loses nothing: joining the pieces with the separator restores the text. |
| Text.SplitCount | agents/opponent_agents.py:24 | `split(' ')` yields one piece more than there are spaces. |
| Text.SplitPiecesFreeOfSep | agents/opponent_agents.py:24 | No piece of `split(' ')` contains a space. |
| Decimal.IntRoundTrip | tools/debate_tools.py:31 | The decimal rendering of any integer, as interpolated into replies, parses back to that integer. |
| Decimal.NoLeadingZero | tools/debate_tools.py:31 | A rendered count starts with "0" iff it is zero, so a numeral of more than one digit has no leading zero, as Python's `str` of an int. |
| Recording.RecordStatement | tools/recording_tools.py:9-16 | Appends exactly one statement event with the caller's name and the text verbatim, keeping the earlier stream as a prefix. The speech request uses the agent's TTS parameters and is made only if the guard allows. The reply is the fixed confirmation. |
| Recording.RecordIntroduction | tools/recording_tools.py:19-25 | Appends exactly one introduction event with the given name and message, then the guarded speech request. The reply is the fixed confirmation. |
| Recording.RecordMediatorAnnouncement | tools/recording_tools.py:38-45 | Appends exactly one announcement event, then the guarded speech request. The reply quotes the announcement. |
| Recording.EventPrecedesSpeech | tools/recording_tools.py:12-14 | Each of the four recording tools writes its event as the first new effect, before any speech request. |
| Recording.RecordJudgment | tools/recording_tools.py:28-35 | Appends the judgment (winner taken verbatim) and then the stop signal "Debate is over!", which is the last effect. The spoken text is "The judgment is as follows: ... The declared winner is: ...". Returns nothing. |
| Recording.RecordingEffectCount | tools/recording_tools.py:9-45 | Each recording tool adds one event plus its speech requests, so the stream grows by 1 plus the number of requests the guard lets through. The judgment adds one more effect for the stop signal. |
| Logging.LogMessage | tools/logging_tools.py:8-12 | Appends exactly one log event with the message verbatim and the given level unchecked, or "INFO" when no level is given. It never speaks, takes no state, and returns the fixed reply. |
| Agents.CreateIntroduction | agents/introduction_agent.py:19-25 | The introducer is named from its config, has only the introduction tool and hands off only to "MediatorAgent". |
| Agents.CreateJudge | agents/judge_agent.py:17-23 | The judge is named from its config, has only the judgment tool and hands off to nobody. |
| Agents.MediatorTools | agents/mediator_agent.py:36-38 | The list is turn tracking, then the status check, then the announcement tool iff mediator speech is enabled, so it has 3 tools versus 2. |
| Agents.CreateMediator | agents/mediator_agent.py:26-46 | The mediator is named from its config. Its hand-off targets are exactly debater A, debater B and the judge, in that order. |
| Agents.CreateOpponent | agents/opponent_agents.py:22-28 | A debater keeps its given name, its description quotes the stance token, it has only the statement tool, and it hands off only to "MediatorAgent". Building it fails iff the role text has no stance word. |
| Agents.StanceTokenAsWrittenIsPersuasively | agents/opponent_agents.py:24 | As written, the stance token of every role text the driver builds is "persuasively", whatever the stance. |
| Agents.StanceTokenRecoversStance | agents/opponent_agents.py:24 | The corrected token (the word after "persuasively") is the stance itself, for any one-word stance. |
| Agents.CreateOpponentCorrected | agents/opponent_agents.py:22-28 | The corrected debater: the same name, tool and hand-off, but its description quotes piece 3 of `split(' ')`. Building it fails iff there are fewer than four pieces. |
| Agents.CreateOpponentFromRoleSucceeds | main.py:105-124 | Building a debater from the driver's role text never raises, as written or corrected. As written, its description quotes "persuasively". |
| Agents.CorrectedOpponentQuotesStance | agents/opponent_agents.py:24 | For the driver's role text and any one-word stance, the corrected debater's description quotes the stance itself. |
| Setup.OrDefault | main.py:70-76 | A string setting takes the override when it is given and non-empty, and otherwise the config default. |
| Setup.ResolveSettings | main.py:70-79 | Every string setting uses the truthiness fallback. The round count takes any given override and otherwise the config value. |
| Setup.EmptyOverrideFallsBackZeroRoundsKept | main.py:70-77 | An empty theme override falls back to the default, while a round override of 0 is kept. |
| Setup.VoicesOnePerAgent | main.py:152-160 | With distinct agent names the voice map has exactly five entries, one per agent, each with that agent's configured voice. |
| Setup.InitialState | main.py:143-162 | Both debaters start at 0 and no other counter exists. The current speaker is "none". Budget, theme, names and rules are copied unchanged. The TTS config holds the configured model and the voice map. |
| Setup.InitialCheckReportsMissingState | main.py:143-151 | A status check on the initial state, before any turn, reports missing state. |
| Setup.ResolvedNamesNonEmptyIff | main.py:73-75 | A debater's resolved name is non-empty iff its override or its config default is non-empty. |
| Setup.ZeroRoundsEscalateOnFirstTurn | main.py:77 | A round override of 0 is kept, so debater A's first tracked turn already exceeds the budget and the status check hands off to the judge. |
| Setup.InitialSpeechParams | main.py:152-160 | With distinct names, every agent speaks with the configured TTS model and its own configured voice, and any other speaker falls back to "alloy". |
| Setup.DriverOpponent | main.py:105-124 | Each debater the driver builds, with the corrected factory, has its resolved name, the statement tool and the "MediatorAgent" hand-off. |
| Setup.BuildWorkflow | main.py:97-168 | The workflow holds exactly five agents (introducer, A, B, mediator, judge), is rooted at the introducer, and starts from the initial state. |
| Setup.Launch | main.py:34-35 | Start-up fails with the ValueError iff the backend key is unset or empty, and then no state is built. Otherwise the assembled workflow is returned. |
| Setup.AssembledNames | main.py:164-168 | The workflow's agent names are the five resolved names in order, and the root is the introducer's name. |
| Setup.HandoffsResolveIff | agents/opponent_agents.py:28 | Every hand-off target names an agent of the workflow iff some agent is named "MediatorAgent". |
| Setup.CoordinatorGraph | agents/mediator_agent.py:46 | Suppose the mediator's configured name is "MediatorAgent" and the names are distinct. Then the introducer and debaters hand off to the mediator, the mediator to A, B and the judge (never to itself or the root), and the judge to nobody. |
| Protocol.Step | tools/recording_tools.py:9-45 | One tool call only appends to the stream and keeps what was there as a prefix. Only turn tracking changes the state, exactly as `DebateTools.TrackTurn` (tools/debate_tools.py:14-28) does. A status check replies with the rendered directive of `DebateTools.CheckStatus` (tools/debate_tools.py:34-61). A log call is `Logging.LogMessage` (tools/logging_tools.py:8-12). |
| Protocol.StepTranscript | tools/recording_tools.py:9-45 | A consumer of the stream sees exactly that call's items added: one event per recording call, the judgment then the stop signal for a judgment call, one log event for a log call (tools/logging_tools.py:8-12), and nothing for turn tracking or the status check (tools/debate_tools.py:14-61). |
| Protocol.RunAppendOnly | tools/recording_tools.py:14 | Over any run of tool calls, the earlier stream is kept unchanged as a prefix. |
| Protocol.RunTranscript | main.py:179-190 | Over any run, the observed stream is the earlier stream followed by every call's items, in call order. |
| Protocol.RunState | tools/debate_tools.py:19-28 | The state after any run equals the state after tracking just the tracked speakers, in order. |
| Protocol.CheckStableWithoutTracking | tools/debate_tools.py:39-61 | Two status checks with no turn tracked between them give the same directive, whatever else was recorded or logged in between. |
| Protocol.JudgmentEndsStream | tools/recording_tools.py:31-35 | After a judgment is recorded, the stream ends with that judgment and then the stop signal. |
| Protocol.RunWithoutClient | utils/tts_utils.py:16-41 | Without a speech client nothing is spoken, yet every recording still reaches the stream. |
| Scenarios.TwoRoundsEscalateOnThirdTurn | tools/debate_tools.py:51-61 | With 2 rounds, tracking X,Y,X,Y gives a hand-back to Y, and one more X escalates to the judge. |
| Scenarios.OneRoundFirstTurnContinues | tools/debate_tools.py:57-61 | With 1 round, a single turn of X continues with X. |
| Scenarios.CheckBeforeAnyTurn | tools/debate_tools.py:46-49 | Before any turn the check reports missing state, whatever the budget. |
| DebateTools.MissingRoundsActsAsOne | tools/debate_tools.py:40 | For every state, the status check gives the same directive whether `total_rounds` is missing or 1. |
| Scenarios.UnknownSpeakerStartsAtOne | tools/debate_tools.py:22-26 | Tracking a name with no counter leaves it at 1, and the check hands back to that name. |

## Findings

| source | as written | input that shows it | evidently intended | confidence | as-written member | corrected member |
|---|---|---|---|---|---|---|
| agents/opponent_agents.py:24 | The description's stance is `role_description.split(' ')[2]` | Stance "for": the role text "You argue persuasively for the debate theme: 'T'." gives "persuasively" | Token 3, the word after "persuasively", which is the stance | medium (not executed) | Agents.StanceTokenAsWrittenIsPersuasively | Agents.StanceTokenRecoversStance |

`Agents.CreateOpponent` models the factory as written: it quotes piece 2 and
fails iff `split(' ')` gives fewer than three pieces.
`Agents.CreateOpponentCorrected` quotes piece 3 and fails iff there are fewer
than four pieces. The driver's role text always has more than four pieces, so
neither factory fails on it. The rest of the model (`Setup.DriverOpponent`)
uses the corrected factory.

## Left out

- The body of `speak_text` after its guard (utils/tts_utils.py:43-85) is left out. It is network, temp-file and subprocess I/O. The model keeps only the guard and records each request that passes it as a `Speak` effect.
- `wait_tool_func` (tools/debate_tools.py:8-11) is left out because it only sleeps.
- Async/await and `Context` get/set are left out. The state is passed in and returned as a plain value. Because the state is a value, the model cannot show lost updates from interleaved calls.
- Agent reasoning and the agent/workflow/tool library are left out, because that code is not visible. This includes which tool an agent calls, when control is handed off, and the delivery order of streamed events. `Protocol` takes the sequence of tool calls as input.
- Prompt-template formatting in every agent factory, and the CLI, YAML and dotenv loading, console colouring and the final-state dump (main.py:179-314), are left out. The model keeps the console loop only as "a consumer reads the stream in order".
- Whether a speech client exists is decided at import time from `OPENAI_API_KEY`. It is a boolean parameter of the recording tools.
- Agent descriptions are free text read only by the language model, so they are left out. The one part kept is the stance token that a debater's description quotes, because computing it can raise.
- Agents.StanceTokenRecoversStance: proved only for one-word stances, because a stance of several words spans several pieces of `split(' ')` and the corrected single token still keeps only its first word.
- Setup.VoicesOnePerAgent: proved only when the five names are distinct. The source does not check this; on a clash the later dictionary entry wins, and `Voices` models that.
- Agents.CorrectedOpponentQuotesStance: proved only for one-word stances. A stance of several words is quoted by its first word only, because the corrected factory still takes a single piece of `split(' ')`.
- Setup.DriverOpponent: builds the debaters with the corrected factory, so the workflow's debaters quote their stance. As written (main.py:105-124 with agents/opponent_agents.py:24) they quote "persuasively"; `Agents.CreateOpponent` models that behaviour.

=== FILE: agents.dfy ===
/** The five agents as the workflow sees them: a name, the tools each may call,
    and the names it may hand control to. Prompt texts are not modelled. */
module Agents {
  import opened Wrappers
  import Text

  datatype Tool =
    | TrackTurnTool
    | CheckDebateStatusTool
    | RecordMediatorAnnouncementTool
    | RecordStatementTool
    | RecordIntroductionTool
    | RecordJudgmentTool

  /** An agent as the workflow sees it. Of the free-text description only the
      stance a debater's description quotes is kept; other agents have none. */
  datatype Agent = Agent(name: string, describedStance: Option<string>, tools: seq<Tool>, canHandoffTo: seq<string>)

  /** The literal name the introducer and both debaters hand control to. The
      mediator's own name comes from its configuration instead. */
  const MediatorHandoffName: string := "MediatorAgent"

  /** Raised while building an agent: indexing past the end of a list. */
  datatype BuildError = IndexError

  function CreateIntroduction(defaultName: string): (a: Agent)
    ensures a.name == defaultName
    ensures a.tools == [RecordIntroductionTool]
    ensures a.canHandoffTo == [MediatorHandoffName]
  {
    Agent(defaultName, None, [RecordIntroductionTool], [MediatorHandoffName])
  }

  function CreateJudge(defaultName: string): (a: Agent)
    ensures a.name == defaultName
    ensures a.tools == [RecordJudgmentTool]
    ensures a.canHandoffTo == []
  {
    Agent(defaultName, None, [RecordJudgmentTool], [])
  }

  /** The mediator's tools: turn tracking, then the status check, then the
      announcement tool only when mediator speech is enabled. */
  function MediatorTools(speechEnabled: bool): (tools: seq<Tool>)
    ensures |tools| == (if speechEnabled then 3 else 2)
    ensures tools[0] == TrackTurnTool && tools[1] == CheckDebateStatusTool
    ensures RecordMediatorAnnouncementTool in tools <==> speechEnabled
  {
    var base := [TrackTurnTool, CheckDebateStatusTool];
    if speechEnabled then base + [RecordMediatorAnnouncementTool] else base
  }

  /** The mediator may hand control to either debater or to the judge, by the
      names it was given, and to nobody else. */
  function CreateMediator(defaultName: string, opponentAName: string, opponentBName: string, judgeName: string, speechEnabled: bool): (a: Agent)
    ensures a.name == defaultName
    ensures a.tools == MediatorTools(speechEnabled)
    ensures forall t :: t in a.canHandoffTo <==> t == opponentAName || t == opponentBName || t == judgeName
    ensures |a.canHandoffTo| == 3 && a.canHandoffTo[0] == opponentAName
      && a.canHandoffTo[1] == opponentBName && a.canHandoffTo[2] == judgeName
  {
    Agent(defaultName, None, MediatorTools(speechEnabled), [opponentAName, opponentBName, judgeName])
  }

  /** The role text the driver gives each debater. */
  function RoleDescription(stance: string, debateTheme: string): string {
    "You argue persuasively " + stance + " the debate theme: '" + debateTheme + "'."
  }

  /** The stance token as the opponent factory picks it: the third piece of
      `role_description.split(' ')`; with fewer pieces the source raises. */
  function StanceTokenAsWritten(roleDescription: string): Option<string> {
    var parts := Text.Split(roleDescription, ' ');
    if |parts| > 2 then Some(parts[2]) else None
  }

  /** The stance token as evidently intended: the fourth piece, the word right
      after "You argue persuasively". */
  function StanceToken(roleDescription: string): Option<string> {
    var parts := Text.Split(roleDescription, ' ');
    if |parts| > 3 then Some(parts[3]) else None
  }

  /** The text after the stance in a role description. */
  function ThemeClause(debateTheme: string): string {
    " the debate theme: '" + debateTheme + "'."
  }

  lemma ThemeClauseStartsWithSpace(debateTheme: string)
    ensures |ThemeClause(debateTheme)| > 0 && ThemeClause(debateTheme)[0] == ' '
  {
  }

  /** The pieces of a role description: the three fixed words, then the rest. */
  lemma SplitRoleDescription(stance: string, debateTheme: string)
    ensures Text.Split(RoleDescription(stance, debateTheme), ' ')
      == ["You", "argue", "persuasively"] + Text.Split(stance + ThemeClause(debateTheme), ' ')
  {
    var rest := stance + ThemeClause(debateTheme);
    assert "You argue persuasively " == "You" + [' '] + ("argue" + [' '] + ("persuasively" + [' ']));
    assert RoleDescription(stance, debateTheme) == "You argue persuasively " + rest;
    assert RoleDescription(stance, debateTheme) == "You" + [' '] + ("argue" + [' '] + ("persuasively" + [' '] + rest));
    Text.SplitAfterThreeWords("You", "argue", "persuasively", ' ', rest);
  }

  /** As written, every role description the driver builds yields the token
      "persuasively", whatever the stance. */
  lemma StanceTokenAsWrittenIsPersuasively(stance: string, debateTheme: string)
    ensures StanceTokenAsWritten(RoleDescription(stance, debateTheme)) == Some("persuasively")
  {
    SplitRoleDescription(stance, debateTheme);
  }

  /** The corrected token recovers a one-word stance. */
  lemma StanceTokenRecoversStance(stance: string, debateTheme: string)
    requires ' ' !in stance
    ensures StanceToken(RoleDescription(stance, debateTheme)) == Some(stance)
  {
    var tail := ThemeClause(debateTheme)[1..];
    ThemeClauseStartsWithSpace(debateTheme);
    assert stance + ThemeClause(debateTheme) == stance + [' '] + tail;
    Text.SplitAfterWord(stance, ' ', tail);
    SplitRoleDescription(stance, debateTheme);
    var parts := Text.Split(RoleDescription(stance, debateTheme), ' ');
    assert parts == ["You", "argue", "persuasively"] + ([stance] + Text.Split(tail, ' '));
    assert parts[3] == stance;
  }

  /** A debater, as the source builds it: may only record statements and hand
      control back to the mediator. Its description quotes piece 2 of the role
      text split on spaces, so building it raises when there are fewer than
      three pieces. */
  function CreateOpponent(name: string, roleDescription: string): (r: Result<Agent, BuildError>)
    ensures r.Success? <==> |Text.Split(roleDescription, ' ')| > 2
    ensures r.Success? ==>
      && r.value.name == name
      && r.value.describedStance == Some(Text.Split(roleDescription, ' ')[2])
      && r.value.tools == [RecordStatementTool]
      && r.value.canHandoffTo == [MediatorHandoffName]
  {
    match StanceTokenAsWritten(roleDescription)
    case None => Failure(IndexError)
    case Some(stance) =>
      Success(Agent(name, Some(stance), [RecordStatementTool], [MediatorHandoffName]))
  }

  /** The debater with the evidently intended description: it quotes piece 3,
      the word after "You argue persuasively", and building it raises when there
      are fewer than four pieces. */
  function CreateOpponentCorrected(name: string, roleDescription: string): (r: Result<Agent, BuildError>)
    ensures r.Success? <==> |Text.Split(roleDescription, ' ')| > 3
    ensures r.Success? ==>
      && r.value.name == name
      && r.value.describedStance == Some(Text.Split(roleDescription, ' ')[3])
      && r.value.tools == [RecordStatementTool]
      && r.value.canHandoffTo == [MediatorHandoffName]
  {
    match StanceToken(roleDescription)
    case None => Failure(IndexError)
    case Some(stance) =>
      Success(Agent(name, Some(stance), [RecordStatementTool], [MediatorHandoffName]))
  }

  /** Building a debater from the driver's role text never raises, either way.
      As written its description quotes "persuasively". */
  lemma CreateOpponentFromRoleSucceeds(name: string, stance: string, debateTheme: string)
    ensures CreateOpponent(name, RoleDescription(stance, debateTheme)).Success?
    ensures CreateOpponent(name, RoleDescription(stance, debateTheme)).value.describedStance == Some("persuasively")
    ensures CreateOpponentCorrected(name, RoleDescription(stance, debateTheme)).Success?
  {
    SplitRoleDescription(stance, debateTheme);
  }

  /** The corrected debater's description quotes a one-word stance itself. */
  lemma CorrectedOpponentQuotesStance(name: string, stance: string, debateTheme: string)
    requires ' ' !in stance
    ensures CreateOpponentCorrected(name, RoleDescription(stance, debateTheme)).Success?
    ensures CreateOpponentCorrected(name, RoleDescription(stance, debateTheme)).value.describedStance == Some(stance)
  {
    CreateOpponentFromRoleSucceeds(name, stance, debateTheme);
    StanceTokenRecoversStance(stance, debateTheme);
  }
}

=== FILE: debate_tools.dfy ===
/** The two coordination tools the mediator calls: turn tracking (the only
    writer of the turn counters) and the read-only status check that classifies
    the state into one of three directives. */
module DebateTools {
  import opened Wrappers
  import opened DebateState
  import Decimal

  datatype TrackResult = TrackResult(state: State, reply: string)

  function TrackReplyPrefix(speaker: string): string {
    "Tracked turn for " + speaker + ". They have had "
  }

  function TrackReplySuffix(speaker: string): string {
    " turns. Current speaker is " + speaker + "."
  }

  /** The confirmation text returned to the mediator, quoting the new count. */
  function TrackReply(speaker: string, count: int): string {
    TrackReplyPrefix(speaker) + Decimal.IntToString(count) + TrackReplySuffix(speaker)
  }

  /** The count a confirmation text reports for `speaker`, if it has that shape. */
  function ReportedCount(speaker: string, reply: string): Option<int> {
    var pre := TrackReplyPrefix(speaker);
    var suf := TrackReplySuffix(speaker);
    if |reply| >= |pre| + |suf| && reply[..|pre|] == pre && reply[|reply| - |suf|..] == suf
    then Decimal.ParseInt(reply[|pre|..|reply| - |suf|])
    else None
  }

  /** `track_turn`: seed a missing counter with 0, raise it by one, and make the
      speaker current. Nothing else in the state changes. */
  function TrackTurn(s: State, speaker: string): (r: TrackResult)
    ensures Turns(r.state, speaker) == Turns(s, speaker) + 1
    ensures speaker !in s.turns ==> speaker in r.state.turns && r.state.turns[speaker] == 1
    ensures r.state.currentSpeaker == speaker
    ensures forall p :: p != speaker ==> Turns(r.state, p) == Turns(s, p)
    ensures r.state.turns.Keys == s.turns.Keys + {speaker}
    ensures SameSettings(s, r.state)
  {
    var count := (if speaker in s.turns then s.turns[speaker] else 0) + 1;
    var next := s.(turns := s.turns[speaker := count], currentSpeaker := speaker);
    TrackResult(next, TrackReply(speaker, count))
  }

  /** The count quoted in the confirmation is the count now stored. */
  lemma TrackReplyReportsStoredCount(s: State, speaker: string)
    ensures ReportedCount(speaker, TrackTurn(s, speaker).reply) == Some(Turns(TrackTurn(s, speaker).state, speaker))
  {
    var r := TrackTurn(s, speaker);
    var n := Turns(r.state, speaker);
    var pre := TrackReplyPrefix(speaker);
    var suf := TrackReplySuffix(speaker);
    var digits := Decimal.IntToString(n);
    assert r.reply == pre + digits + suf;
    assert r.reply[..|pre|] == pre;
    assert r.reply[|r.reply| - |suf|..] == suf;
    assert r.reply[|pre|..|r.reply| - |suf|] == digits;
    Decimal.IntRoundTrip(n);
  }

  /** The directive `check_debate_status` hands back to the mediator. */
  datatype Directive =
    | StateMissing
    | HandoffToJudge
    | HandoffToSpeaker(speaker: string)

  /** Every directive text starts with this marker. The texts below are written
      in pieces only so that the verifier can see their individual characters. */
  const ActionMarker: string := "ACTION: "
  const StateMissingText: string := ActionMarker + "ERROR_CRITICAL_STATE" + "_MISSING_FOR_DEBATE_STATUS_CHECK"
  const HandoffToJudgeText: string := ActionMarker + "HANDOFF_TO_JUDGE_AGENT"
  const HandoffToSpeakerPrefix: string := ActionMarker + "HANDOFF_TO_SPEAKER:"

  /** The exact text the tool returns for each directive. */
  function Render(d: Directive): string {
    match d
    case StateMissing => StateMissingText
    case HandoffToJudge => HandoffToJudgeText
    case HandoffToSpeaker(name) => HandoffToSpeakerPrefix + name
  }

  /** How a reader of the tool's text recovers the directive. */
  function ParseDirective(text: string): Option<Directive> {
    if text == StateMissingText then Some(StateMissing)
    else if text == HandoffToJudgeText then Some(HandoffToJudge)
    else if |text| >= |HandoffToSpeakerPrefix| && text[..|HandoffToSpeakerPrefix|] == HandoffToSpeakerPrefix
    then Some(HandoffToSpeaker(text[|HandoffToSpeakerPrefix|..]))
    else None
  }

  /** The rendered texts are unambiguous: each reads back as its directive, so
      distinct directives never share a text. */
  lemma RenderRoundTrip(d: Directive)
    ensures ParseDirective(Render(d)) == Some(d)
  {
    match d
    case StateMissing =>
    case HandoffToJudge =>
    case HandoffToSpeaker(name) =>
      var t := Render(d);
      assert t[..|HandoffToSpeakerPrefix|] == HandoffToSpeakerPrefix;
      assert t[8] == HandoffToSpeakerPrefix[8] == 'H' && StateMissingText[8] == 'E';
      assert t[19] == HandoffToSpeakerPrefix[19] == 'S' && HandoffToJudgeText[19] == 'J';
      assert t[|HandoffToSpeakerPrefix|..] == name;
  }

  /** The identifying fields the status check needs: both debater names and a
      real current speaker (neither empty nor the "none" sentinel). */
  predicate Identified(s: State) {
    && s.opponentAName != ""
    && s.opponentBName != ""
    && s.currentSpeaker != ""
    && s.currentSpeaker != NoSpeaker
  }

  /** Some debater has been picked beyond the round budget. */
  predicate BudgetExceeded(s: State) {
    Exhausted(s, s.opponentAName) || Exhausted(s, s.opponentBName)
  }

  /** `check_debate_status`: a read of the state classified three ways. The
      identity check comes first and overrides the round test; the continuation
      names the speaker who was just tracked. */
  function CheckStatus(s: State): (d: Directive)
    ensures d == StateMissing <==> !Identified(s)
    ensures d == HandoffToJudge <==> Identified(s) && BudgetExceeded(s)
    ensures d.HandoffToSpeaker? <==> Identified(s) && !BudgetExceeded(s)
    ensures d.HandoffToSpeaker? ==> d.speaker == s.currentSpeaker && d.speaker != "" && d.speaker != NoSpeaker
  {
    var a := s.opponentAName;
    var b := s.opponentBName;
    var speaker := s.currentSpeaker;
    if a == "" || b == "" || speaker == "" || speaker == NoSpeaker then StateMissing
    else if Turns(s, a) > Budget(s) || Turns(s, b) > Budget(s) then HandoffToJudge
    else HandoffToSpeaker(speaker)
  }

  /** Right after tracking a real speaker in a state whose debaters are named,
      the check either escalates or names that speaker; it escalates exactly
      when a counter has passed the budget. */
  lemma CheckAfterTrack(s: State, speaker: string)
    requires s.opponentAName != "" && s.opponentBName != ""
    requires speaker != "" && speaker != NoSpeaker
    ensures var t := TrackTurn(s, speaker).state;
      CheckStatus(t) == (if BudgetExceeded(t) then HandoffToJudge else HandoffToSpeaker(speaker))
  {
  }

  /** A state without a round budget is checked exactly as a one-round one. */
  lemma MissingRoundsActsAsOne(s: State)
    ensures CheckStatus(s.(totalRounds := None)) == CheckStatus(s.(totalRounds := Some(DefaultRounds)))
  {
  }
}

=== FILE: decimal.dfy ===
/** Python's `str(n)` for integers, as it appears inside formatted replies, and
    the reading back of such a numeral. */
module Decimal {
  import opened Wrappers

  predicate IsDigit(c: char) {
    '0' <= c <= '9'
  }

  function DigitChar(d: nat): (c: char)
    requires d < 10
    ensures IsDigit(c)
  {
    ['0', '1', '2', '3', '4', '5', '6', '7', '8', '9'][d]
  }

  function DigitValue(c: char): nat
    requires IsDigit(c)
  {
    (c as int - '0' as int) as nat
  }

  /** The decimal numeral of `n`, most significant digit first, no leading zeros. */
  function NatToString(n: nat): (s: string)
    ensures |s| > 0
    ensures forall i :: 0 <= i < |s| ==> IsDigit(s[i])
  {
    if n < 10 then [DigitChar(n)] else NatToString(n / 10) + [DigitChar(n % 10)]
  }

  /** The only digit rendered as '0' is zero. */
  lemma DigitCharZero(d: nat)
    requires d < 10
    ensures DigitChar(d) == '0' <==> d == 0
  {
  }

  /** The numeral has no leading zero: it starts with '0' only for zero itself,
      which is the one-character numeral "0". */
  lemma {:induction false} NoLeadingZero(n: nat)
    ensures NatToString(n)[0] == '0' <==> n == 0
    ensures |NatToString(n)| > 1 ==> NatToString(n)[0] != '0'
  {
    if n < 10 {
      DigitCharZero(n);
    } else {
      NoLeadingZero(n / 10);
      assert NatToString(n)[0] == NatToString(n / 10)[0];
    }
  }

  /** `str(i)`: a minus sign before the magnitude for negative numbers. */
  function IntToString(i: int): string {
    if i < 0 then "-" + NatToString(-i) else NatToString(i)
  }

  /** The value of a string of decimal digits. */
  function DigitsValue(s: string): nat
    requires forall i :: 0 <= i < |s| ==> IsDigit(s[i])
  {
    if |s| == 0 then 0 else 10 * DigitsValue(s[..|s| - 1]) + DigitValue(s[|s| - 1])
  }

  predicate AllDigits(s: string) {
    forall i :: 0 <= i < |s| ==> IsDigit(s[i])
  }

  /** Reads an optionally signed decimal numeral; anything else is `None`. */
  function ParseInt(s: string): Option<int> {
    if |s| > 0 && s[0] == '-' then
      if |s| > 1 && AllDigits(s[1..]) then Some(-(DigitsValue(s[1..]) as int)) else None
    else if |s| > 0 && AllDigits(s) then Some(DigitsValue(s))
    else None
  }

  lemma {:induction false} NatRoundTrip(n: nat)
    ensures DigitsValue(NatToString(n)) == n
  {
    if n >= 10 {
      NatRoundTrip(n / 10);
      var s := NatToString(n);
      assert s[..|s| - 1] == NatToString(n / 10);
    }
  }

  /** Every integer's rendering reads back as that integer. */
  lemma IntRoundTrip(i: int)
    ensures ParseInt(IntToString(i)) == Some(i)
  {
    if i < 0 {
      NatRoundTrip(-i);
      assert IntToString(i)[1..] == NatToString(-i);
    } else {
      NatRoundTrip(i);
    }
  }
}

=== FILE: events.dfy ===
/** The typed records written to the workflow's event stream, and the stream
    itself as an ordered trace of effects. */
module Events {
  import opened Wrappers


  /** The five custom event classes as one tagged union. Field names follow the
      source; a judgment's `winner` is free text, never checked against the
      debaters' names. */
  datatype Event =
    | OpponentStatement(speakerName: string, statement: string)
    | IntroductionComplete(agentName: string, introductionMessage: string)
    | JudgmentDelivered(judgeName: string, judgmentText: string, winner: string)
    | CustomLog(message: string, logLevel: string)
    | MediatorAnnouncement(agentName: string, announcementText: string)

  /** The level a log event carries when the caller gives none. */
  const DefaultLogLevel: string := "INFO"

  /** The `event_type` tag each event class carries. */
  function EventType(e: Event): string {
    match e
    case OpponentStatement(_, _) => "opponent_statement_event"
    case IntroductionComplete(_, _) => "introduction_complete_event"
    case JudgmentDelivered(_, _, _) => "judgment_delivered_event"
    case CustomLog(_, _) => "custom_log_event"
    case MediatorAnnouncement(_, _) => "mediator_announcement_event"
  }

  /** Two events share a tag exactly when they are of the same kind, so the tag
      identifies the kind. */
  lemma EventTypeIdentifiesKind(e1: Event, e2: Event)
    ensures EventType(e1) == EventType(e2) <==>
      && e1.OpponentStatement? == e2.OpponentStatement?
      && e1.IntroductionComplete? == e2.IntroductionComplete?
      && e1.JudgmentDelivered? == e2.JudgmentDelivered?
      && e1.CustomLog? == e2.CustomLog?
      && e1.MediatorAnnouncement? == e2.MediatorAnnouncement?
  {
  }

  /** One item of the stream: a custom event, or the workflow's terminal stop
      signal carrying its result text. */
  datatype Item = Emitted(event: Event) | Stop(result: string)

  /** The result text of the stop signal written after a judgment. */
  const DebateOver: string := "Debate is over!"

  /** A request to the speech renderer. */
  datatype SpeechRequest = SpeechRequest(text: string, model: string, voice: string)

  /** What a tool invocation does to the outside world, in order: an append to
      the event stream or a request to speak. */
  datatype Effect = Append(item: Item) | Speak(request: SpeechRequest)

  /** The effects after a tool invocation, and the text it returns to the
      calling agent (the judgment tool returns nothing). */
  datatype Outcome = Outcome(trace: seq<Effect>, reply: Option<string>)

  /** The event stream a consumer observes: the appended items, in order. */
  function Transcript(trace: seq<Effect>): (items: seq<Item>)
  {
    if |trace| == 0 then []
    else
      var rest := Transcript(trace[..|trace| - 1]);
      match trace[|trace| - 1]
      case Append(it) => rest + [it]
      case Speak(_) => rest
  }

  /** The speech requests made, in order. */
  function Spoken(trace: seq<Effect>): (requests: seq<SpeechRequest>)
  {
    if |trace| == 0 then []
    else
      var rest := Spoken(trace[..|trace| - 1]);
      match trace[|trace| - 1]
      case Append(_) => rest
      case Speak(r) => rest + [r]
  }

  /** Every effect is either an append or a speech request: the two views
      together account for the whole trace. */
  lemma {:induction false} TranscriptAndSpokenPartition(trace: seq<Effect>)
    ensures |Transcript(trace)| + |Spoken(trace)| == |trace|
  {
    if |trace| > 0 {
      TranscriptAndSpokenPartition(trace[..|trace| - 1]);
    }
  }

  /** Observing a trace in two parts observes each part once, in order: nothing
      is dropped, duplicated or reordered. */
  lemma {:induction false} TranscriptAppend(a: seq<Effect>, b: seq<Effect>)
    ensures Transcript(a + b) == Transcript(a) + Transcript(b)
    ensures Spoken(a + b) == Spoken(a) + Spoken(b)
    decreases |b|
  {
    if |b| > 0 {
      var b' := b[..|b| - 1];
      assert (a + b)[..|a + b| - 1] == a + b';
      TranscriptAppend(a, b');
    } else {
      assert a + b == a;
    }
  }
}

=== FILE: logging.dfy ===
/** The logging tool: writes one log event to the stream and touches nothing else. */
module Logging {
  import opened Wrappers
  import opened Events

  function LogReply(message: string, logLevel: string): string {
    "Message logged: '" + message + "' with level " + logLevel + ". Proceed with your next action."
  }

  /** `log_message`: one log event with the message verbatim and the caller's
      level unchecked, or "INFO" when the caller gives none. It never speaks and
      takes no workflow state. */
  function LogMessage(trace: seq<Effect>, message: string, logLevel: Option<string>): (o: Outcome)
    ensures var level := if logLevel.Some? then logLevel.value else DefaultLogLevel;
      && |o.trace| == |trace| + 1 && o.trace[..|trace|] == trace
      && Transcript(o.trace) == Transcript(trace) + [Emitted(CustomLog(message, level))]
      && Spoken(o.trace) == Spoken(trace)
      && o.reply == Some(LogReply(message, level))
  {
    var level := logLevel.GetOr(DefaultLogLevel);
    var t := trace + [Append(Emitted(CustomLog(message, level)))];
    assert t[..|trace|] == trace;
    Outcome(t, Some(LogReply(message, level)))
  }
}

=== FILE: protocol.dfy ===
/** The tools as one machine: each invocation maps the shared state and the
    effect trace to new ones plus the text handed back to the calling agent.
    Which agent calls which tool, and when, is left to the agents. */
module Protocol {
  import opened Wrappers
  import opened Events
  import opened DebateState
  import opened DebateTools
  import Rounds
  import Recording
  import Logging

  datatype World = World(state: State, trace: seq<Effect>)

  /** One tool invocation with its arguments; an omitted log level is `None`. */
  datatype Call =
    | TrackTurnCall(speaker: string)
    | CheckStatusCall
    | RecordStatementCall(agentName: string, statement: string)
    | RecordIntroductionCall(agentName: string, introductionMessage: string)
    | RecordAnnouncementCall(agentName: string, announcementText: string)
    | RecordJudgmentCall(agentName: string, judgmentText: string, declaredWinner: string)
    | LogMessageCall(message: string, logLevel: Option<string>)

  datatype StepResult = StepResult(world: World, reply: Option<string>)

  /** What each tool puts on the stream, independent of the state it runs in. */
  function Items(c: Call): seq<Item> {
    match c
    case TrackTurnCall(_) => []
    case CheckStatusCall => []
    case RecordStatementCall(n, t) => [Emitted(OpponentStatement(n, t))]
    case RecordIntroductionCall(n, t) => [Emitted(IntroductionComplete(n, t))]
    case RecordAnnouncementCall(n, t) => [Emitted(MediatorAnnouncement(n, t))]
    case RecordJudgmentCall(n, t, w) => [Emitted(JudgmentDelivered(n, t, w)), Stop(DebateOver)]
    case LogMessageCall(m, l) => [Emitted(CustomLog(m, l.GetOr(DefaultLogLevel)))]
  }

  /** One invocation. Only turn tracking writes the state; only the recording
      and logging tools write the stream, and they only append to it. */
  function Step(clientPresent: bool, w: World, c: Call): (r: StepResult)
    ensures |w.trace| <= |r.world.trace| && r.world.trace[..|w.trace|] == w.trace
    ensures c.TrackTurnCall? ==> r.world.state == TrackTurn(w.state, c.speaker).state
    ensures !c.TrackTurnCall? ==> r.world.state == w.state
    ensures c.CheckStatusCall? ==> r.reply == Some(Render(CheckStatus(w.state)))
  {
    match c
    case TrackTurnCall(speaker) =>
      var t := TrackTurn(w.state, speaker);
      StepResult(World(t.state, w.trace), Some(t.reply))
    case CheckStatusCall =>
      StepResult(w, Some(Render(CheckStatus(w.state))))
    case RecordStatementCall(n, text) =>
      var o := Recording.RecordStatement(clientPresent, w.state, w.trace, n, text);
      StepResult(World(w.state, o.trace), o.reply)
    case RecordIntroductionCall(n, text) =>
      var o := Recording.RecordIntroduction(clientPresent, w.state, w.trace, n, text);
      StepResult(World(w.state, o.trace), o.reply)
    case RecordAnnouncementCall(n, text) =>
      var o := Recording.RecordMediatorAnnouncement(clientPresent, w.state, w.trace, n, text);
      StepResult(World(w.state, o.trace), o.reply)
    case RecordJudgmentCall(n, text, winner) =>
      var o := Recording.RecordJudgment(clientPresent, w.state, w.trace, n, text, winner);
      StepResult(World(w.state, o.trace), o.reply)
    case LogMessageCall(m, level) =>
      var o := Logging.LogMessage(w.trace, m, level);
      StepResult(World(w.state, o.trace), o.reply)
  }

  /** A consumer of the stream sees exactly the invocation's items appended. */
  lemma StepTranscript(clientPresent: bool, w: World, c: Call)
    ensures Transcript(Step(clientPresent, w, c).world.trace) == Transcript(w.trace) + Items(c)
  {
  }

  /** The world after the invocations in `calls`, in order. */
  function Run(clientPresent: bool, w: World, calls: seq<Call>): World {
    if |calls| == 0 then w
    else Step(clientPresent, Run(clientPresent, w, calls[..|calls| - 1]), calls[|calls| - 1]).world
  }

  /** Everything the invocations put on the stream, in invocation order. */
  function AllItems(calls: seq<Call>): seq<Item> {
    if |calls| == 0 then [] else AllItems(calls[..|calls| - 1]) + Items(calls[|calls| - 1])
  }

  /** The speakers of the turn-tracking invocations, in order. */
  function Tracked(calls: seq<Call>): seq<string> {
    if |calls| == 0 then []
    else
      var last := calls[|calls| - 1];
      Tracked(calls[..|calls| - 1]) + (if last.TrackTurnCall? then [last.speaker] else [])
  }

  /** The stream is append-only: what was there before a run is still there,
      unchanged, as its beginning. */
  lemma {:induction false} RunAppendOnly(clientPresent: bool, w: World, calls: seq<Call>)
    ensures |w.trace| <= |Run(clientPresent, w, calls).trace|
    ensures Run(clientPresent, w, calls).trace[..|w.trace|] == w.trace
  {
    if |calls| > 0 {
      RunAppendOnly(clientPresent, w, calls[..|calls| - 1]);
    }
  }

  /** A consumer of the stream sees every item of every invocation exactly once,
      in invocation order. */
  lemma {:induction false} RunTranscript(clientPresent: bool, w: World, calls: seq<Call>)
    ensures Transcript(Run(clientPresent, w, calls).trace) == Transcript(w.trace) + AllItems(calls)
  {
    if |calls| > 0 {
      var init := calls[..|calls| - 1];
      RunTranscript(clientPresent, w, init);
      StepTranscript(clientPresent, Run(clientPresent, w, init), calls[|calls| - 1]);
    }
  }

  /** The state after a run is the state after tracking the tracked speakers:
      no other tool writes it. */
  lemma {:induction false} RunState(clientPresent: bool, w: World, calls: seq<Call>)
    ensures Run(clientPresent, w, calls).state == Rounds.TrackAll(w.state, Tracked(calls))
  {
    if |calls| > 0 {
      var init := calls[..|calls| - 1];
      RunState(clientPresent, w, init);
      if calls[|calls| - 1].TrackTurnCall? {
        var sp := Tracked(calls);
        assert sp[..|sp| - 1] == Tracked(init);
      } else {
        assert Tracked(calls) == Tracked(init);
      }
    }
  }

  /** The status check only reads: with no turn tracked in between, any two
      checks give the same directive, whatever else was recorded or logged. */
  lemma CheckStableWithoutTracking(clientPresent: bool, w: World, calls: seq<Call>)
    requires forall i :: 0 <= i < |calls| ==> !calls[i].TrackTurnCall?
    ensures Step(clientPresent, Run(clientPresent, w, calls), CheckStatusCall).reply
         == Step(clientPresent, w, CheckStatusCall).reply
  {
    RunState(clientPresent, w, calls);
    NoTrackedSpeakers(calls);
  }

  lemma {:induction false} NoTrackedSpeakers(calls: seq<Call>)
    requires forall i :: 0 <= i < |calls| ==> !calls[i].TrackTurnCall?
    ensures Tracked(calls) == []
  {
    if |calls| > 0 {
      NoTrackedSpeakers(calls[..|calls| - 1]);
    }
  }

  /** After a judgment is recorded, the stream ends with that judgment followed
      by the stop signal. */
  lemma JudgmentEndsStream(clientPresent: bool, w: World, calls: seq<Call>, judge: string, text: string, winner: string)
    ensures var items := Transcript(Run(clientPresent, w, calls + [RecordJudgmentCall(judge, text, winner)]).trace);
      && |items| >= 2
      && items[|items| - 2] == Emitted(JudgmentDelivered(judge, text, winner))
      && items[|items| - 1] == Stop(DebateOver)
  {
    var all := calls + [RecordJudgmentCall(judge, text, winner)];
    assert all[..|all| - 1] == calls;
  }

  /** Without a speech client nothing is ever spoken, and every recording still
      reaches the stream. */
  lemma {:induction false} RunWithoutClient(w: World, calls: seq<Call>)
    ensures Spoken(Run(false, w, calls).trace) == Spoken(w.trace)
    ensures Transcript(Run(false, w, calls).trace) == Transcript(w.trace) + AllItems(calls)
  {
    RunTranscript(false, w, calls);
    if |calls| > 0 {
      var init := calls[..|calls| - 1];
      RunWithoutClient(w, init);
      var before := Run(false, w, init);
      var c := calls[|calls| - 1];
      match c
      case RecordStatementCall(n, text) =>
        assert Recording.SpeechFor(false, before.state, n, text) == [];
      case RecordIntroductionCall(n, text) =>
        assert Recording.SpeechFor(false, before.state, n, text) == [];
      case RecordAnnouncementCall(n, text) =>
        assert Recording.SpeechFor(false, before.state, n, text) == [];
      case RecordJudgmentCall(n, text, winner) =>
        assert Recording.SpeechFor(false, before.state, n, Recording.JudgmentSpeech(text, winner)) == [];
      case _ =>
    }
  }
}

=== FILE: recording.dfy ===
/** The four recording tools: each writes one typed event to the stream and then
    asks for it to be spoken; the judgment tool also writes the stop signal.
    None of them writes the workflow state; they read it only for the speaker's
    voice. `clientPresent` says whether a speech client was configured. */
module Recording {
  import opened Wrappers
  import opened Events
  import opened DebateState
  import Tts

  /** The speech request, if any, for `text` spoken by `agentName`. */
  function SpeechFor(clientPresent: bool, s: State, agentName: string, text: string): seq<SpeechRequest> {
    var p := Tts.ParamsFor(s, agentName);
    if Tts.ShouldSpeak(clientPresent, text) then [SpeechRequest(text, p.model, p.voice)] else []
  }

  function SpeakEffects(requests: seq<SpeechRequest>): (effects: seq<Effect>)
    requires |requests| <= 1
    ensures Transcript(effects) == [] && Spoken(effects) == requests
  {
    if |requests| == 0 then [] else assert [Speak(requests[0])][..0] == []; [Speak(requests[0])]
  }

  /** `after` keeps `before` as its prefix and the stream grows by exactly `items`. */
  predicate AppendsItems(before: seq<Effect>, after: seq<Effect>, items: seq<Item>) {
    && |before| < |after|
    && after[..|before|] == before
    && Transcript(after) == Transcript(before) + items
  }

  /** Append one item, then make the speech requests. */
  function AppendThenSpeak(trace: seq<Effect>, it: Item, requests: seq<SpeechRequest>): (t: seq<Effect>)
    requires |requests| <= 1
    ensures AppendsItems(trace, t, [it])
    ensures Spoken(t) == Spoken(trace) + requests
  {
    var t := trace + [Append(it)] + SpeakEffects(requests);
    TranscriptAppend(trace + [Append(it)], SpeakEffects(requests));
    assert (trace + [Append(it)])[..|trace|] == trace;
    assert t[..|trace|] == trace;
    t
  }

  function StatementReply(agentName: string): string {
    "Statement from " + agentName + " recorded successfully and spoken."
  }

  function IntroductionReply(agentName: string): string {
    "Introduction from " + agentName + " recorded successfully and spoken."
  }

  function AnnouncementReply(agentName: string, announcementText: string): string {
    "Announcement from " + agentName + " recorded successfully and spoken: '" + announcementText + "'"
  }

  /** The sentence spoken for a judgment. */
  function JudgmentSpeech(judgmentText: string, declaredWinner: string): string {
    "The judgment is as follows: " + judgmentText + ". The declared winner is: " + declaredWinner + "."
  }

  /** `record_statement`: one statement event with the caller's name and the text
      verbatim, appended before any speech request. */
  function RecordStatement(clientPresent: bool, s: State, trace: seq<Effect>, agentName: string, statement: string): (o: Outcome)
    ensures AppendsItems(trace, o.trace, [Emitted(OpponentStatement(agentName, statement))])
    ensures Spoken(o.trace) == Spoken(trace) + SpeechFor(clientPresent, s, agentName, statement)
    ensures o.reply == Some(StatementReply(agentName))
  {
    var ev := OpponentStatement(agentName, statement);
    Outcome(AppendThenSpeak(trace, Emitted(ev), SpeechFor(clientPresent, s, agentName, statement)),
            Some(StatementReply(agentName)))
  }

  /** `record_introduction`: one introduction event, then the speech request. */
  function RecordIntroduction(clientPresent: bool, s: State, trace: seq<Effect>, agentName: string, message: string): (o: Outcome)
    ensures AppendsItems(trace, o.trace, [Emitted(IntroductionComplete(agentName, message))])
    ensures Spoken(o.trace) == Spoken(trace) + SpeechFor(clientPresent, s, agentName, message)
    ensures o.reply == Some(IntroductionReply(agentName))
  {
    var ev := IntroductionComplete(agentName, message);
    Outcome(AppendThenSpeak(trace, Emitted(ev), SpeechFor(clientPresent, s, agentName, message)),
            Some(IntroductionReply(agentName)))
  }

  /** `record_mediator_announcement`: one announcement event, then the speech
      request; the reply quotes the announcement. */
  function RecordMediatorAnnouncement(clientPresent: bool, s: State, trace: seq<Effect>, agentName: string, announcementText: string): (o: Outcome)
    ensures AppendsItems(trace, o.trace, [Emitted(MediatorAnnouncement(agentName, announcementText))])
    ensures Spoken(o.trace) == Spoken(trace) + SpeechFor(clientPresent, s, agentName, announcementText)
    ensures o.reply == Some(AnnouncementReply(agentName, announcementText))
  {
    var ev := MediatorAnnouncement(agentName, announcementText);
    Outcome(AppendThenSpeak(trace, Emitted(ev), SpeechFor(clientPresent, s, agentName, announcementText)),
            Some(AnnouncementReply(agentName, announcementText)))
  }

  /** `record_judgment`: the judgment event (winner taken verbatim), the spoken
      verdict, and then the stop signal as the last effect. Returns nothing. */
  function RecordJudgment(clientPresent: bool, s: State, trace: seq<Effect>, agentName: string, judgmentText: string, declaredWinner: string): (o: Outcome)
    ensures AppendsItems(trace, o.trace, [Emitted(JudgmentDelivered(agentName, judgmentText, declaredWinner)), Stop(DebateOver)])
    ensures o.trace[|o.trace| - 1] == Append(Stop(DebateOver))
    ensures Spoken(o.trace) == Spoken(trace) + SpeechFor(clientPresent, s, agentName, JudgmentSpeech(judgmentText, declaredWinner))
    ensures o.reply == None
  {
    var ev := JudgmentDelivered(agentName, judgmentText, declaredWinner);
    var spoken := AppendThenSpeak(trace, Emitted(ev), SpeechFor(clientPresent, s, agentName, JudgmentSpeech(judgmentText, declaredWinner)));
    var t := spoken + [Append(Stop(DebateOver))];
    assert t[..|spoken|] == spoken;
    assert t[..|trace|] == spoken[..|trace|];
    Outcome(t, None)
  }

  /** Each recording tool writes its event before it asks for any speech: the
      first new effect is the append. */
  lemma EventPrecedesSpeech(clientPresent: bool, s: State, trace: seq<Effect>, agentName: string, text: string, winner: string)
    ensures RecordStatement(clientPresent, s, trace, agentName, text).trace[|trace|]
      == Append(Emitted(OpponentStatement(agentName, text)))
    ensures RecordIntroduction(clientPresent, s, trace, agentName, text).trace[|trace|]
      == Append(Emitted(IntroductionComplete(agentName, text)))
    ensures RecordMediatorAnnouncement(clientPresent, s, trace, agentName, text).trace[|trace|]
      == Append(Emitted(MediatorAnnouncement(agentName, text)))
    ensures RecordJudgment(clientPresent, s, trace, agentName, text, winner).trace[|trace|]
      == Append(Emitted(JudgmentDelivered(agentName, text, winner)))
  {
  }

  /** Each recording tool adds exactly its appended items plus the speech
      requests the guard lets through, and no other effect. */
  lemma RecordingEffectCount(clientPresent: bool, s: State, trace: seq<Effect>, agentName: string, text: string, winner: string)
    ensures |RecordStatement(clientPresent, s, trace, agentName, text).trace|
      == |trace| + 1 + |SpeechFor(clientPresent, s, agentName, text)|
    ensures |RecordIntroduction(clientPresent, s, trace, agentName, text).trace|
      == |trace| + 1 + |SpeechFor(clientPresent, s, agentName, text)|
    ensures |RecordMediatorAnnouncement(clientPresent, s, trace, agentName, text).trace|
      == |trace| + 1 + |SpeechFor(clientPresent, s, agentName, text)|
    ensures |RecordJudgment(clientPresent, s, trace, agentName, text, winner).trace|
      == |trace| + 2 + |SpeechFor(clientPresent, s, agentName, JudgmentSpeech(text, winner))|
  {
    TranscriptAndSpokenPartition(trace);
    TranscriptAndSpokenPartition(RecordStatement(clientPresent, s, trace, agentName, text).trace);
    TranscriptAndSpokenPartition(RecordIntroduction(clientPresent, s, trace, agentName, text).trace);
    TranscriptAndSpokenPartition(RecordMediatorAnnouncement(clientPresent, s, trace, agentName, text).trace);
    TranscriptAndSpokenPartition(RecordJudgment(clientPresent, s, trace, agentName, text, winner).trace);
  }
}

=== FILE: rounds.dfy ===
/** Sequences of mediator turns: what repeated turn tracking does to the
    counters, and the round bound that holds when the mediator stops tracking
    once it has been told to hand off to the judge. */
module Rounds {
  import opened DebateState
  import opened DebateTools

  /** The state after tracking each of `speakers`, in order. */
  function TrackAll(s: State, speakers: seq<string>): State {
    if |speakers| == 0 then s
    else TrackTurn(TrackAll(s, speakers[..|speakers| - 1]), speakers[|speakers| - 1]).state
  }

  /** How many times `p` occurs in `speakers`. */
  function Occurrences(speakers: seq<string>, p: string): nat {
    if |speakers| == 0 then 0
    else Occurrences(speakers[..|speakers| - 1], p) + (if speakers[|speakers| - 1] == p then 1 else 0)
  }

  /** Each counter grows by exactly the number of times its speaker was tracked. */
  lemma {:induction false} TrackAllCounts(s: State, speakers: seq<string>, p: string)
    ensures Turns(TrackAll(s, speakers), p) == Turns(s, p) + Occurrences(speakers, p)
  {
    if |speakers| > 0 {
      TrackAllCounts(s, speakers[..|speakers| - 1], p);
    }
  }

  /** Tracking never touches the settings, and the current speaker is the last
      one tracked (unchanged when nobody was). */
  lemma {:induction false} TrackAllFrame(s: State, speakers: seq<string>)
    ensures SameSettings(s, TrackAll(s, speakers))
    ensures TrackAll(s, speakers).currentSpeaker ==
      if |speakers| == 0 then s.currentSpeaker else speakers[|speakers| - 1]
  {
    if |speakers| > 0 {
      TrackAllFrame(s, speakers[..|speakers| - 1]);
    }
  }

  /** A name the status check accepts as a current speaker. */
  predicate RealSpeaker(name: string) {
    name != "" && name != NoSpeaker
  }

  /** The mediator's protocol: after the first tracked turn, it tracks another
      turn only when the status check that followed the previous one did not
      say to hand off to the judge. */
  predicate NoTrackAfterEscalation(s: State, speakers: seq<string>) {
    if |speakers| <= 1 then true
    else
      var init := speakers[..|speakers| - 1];
      NoTrackAfterEscalation(s, init) && CheckStatus(TrackAll(s, init)) != HandoffToJudge
  }

  /** Tracking one more turn appends to the list of tracked speakers. */
  lemma TrackAllSnoc(s: State, speakers: seq<string>, p: string)
    ensures TrackAll(s, speakers + [p]) == TrackTurn(TrackAll(s, speakers), p).state
  {
  }

  /** From a state within the budget, one tracked turn leaves every debater at
      most one past it. */
  lemma OneTurnPastBudgetAtMost(s: State, speaker: string)
    requires !BudgetExceeded(s)
    ensures var t := TrackTurn(s, speaker).state;
      Budget(t) == Budget(s)
      && Turns(t, s.opponentAName) <= Budget(s) + 1
      && Turns(t, s.opponentBName) <= Budget(s) + 1
  {
  }

  /** A state the check did not escalate on, whose current speaker is real and
      whose debaters are named, is within the budget. */
  lemma NotEscalatedWithinBudget(s: State)
    requires s.opponentAName != "" && s.opponentBName != ""
    requires RealSpeaker(s.currentSpeaker)
    requires CheckStatus(s) != HandoffToJudge
    ensures !BudgetExceeded(s)
  {
  }

  /** Every tracked name that is one of the two debaters is a real speaker.
      Other names, "" and "none" included, may be tracked freely. */
  predicate DebatersTrackedAsReal(s: State, speakers: seq<string>) {
    forall i :: 0 <= i < |speakers| && (speakers[i] == s.opponentAName || speakers[i] == s.opponentBName)
      ==> RealSpeaker(speakers[i])
  }

  /** Under the protocol, every state the mediator tracks a turn from is within
      the budget: after a real name the check did not escalate, and a name that
      is not real is no debater, so it leaves both counters alone. */
  lemma {:induction false} WithinBudgetBeforeLast(s: State, speakers: seq<string>)
    requires |speakers| > 0
    requires s.opponentAName != "" && s.opponentBName != ""
    requires DebatersTrackedAsReal(s, speakers)
    requires !BudgetExceeded(s)
    requires NoTrackAfterEscalation(s, speakers)
    ensures !BudgetExceeded(TrackAll(s, speakers[..|speakers| - 1]))
  {
    var n := |speakers|;
    if n > 1 {
      var init := speakers[..n - 1];
      assert init[..n - 2] == speakers[..n - 2];
      WithinBudgetBeforeLast(s, init);
      var before := TrackAll(s, init[..n - 2]);
      var prev := TrackAll(s, init);
      var p := speakers[n - 2];
      assert prev == TrackTurn(before, p).state;
      TrackAllFrame(s, init);
      if RealSpeaker(p) {
        NotEscalatedWithinBudget(prev);
      } else {
        assert p != s.opponentAName && p != s.opponentBName;
        TrackAllFrame(s, init[..n - 2]);
      }
    }
  }

  /** Under that protocol, starting within the budget, no debater's counter ever
      passes `total_rounds + 1`. The source does not enforce this itself. */
  lemma RoundBound(s: State, speakers: seq<string>)
    requires s.opponentAName != "" && s.opponentBName != ""
    requires DebatersTrackedAsReal(s, speakers)
    requires !BudgetExceeded(s)
    requires NoTrackAfterEscalation(s, speakers)
    ensures Turns(TrackAll(s, speakers), s.opponentAName) <= Budget(s) + 1
    ensures Turns(TrackAll(s, speakers), s.opponentBName) <= Budget(s) + 1
  {
    var n := |speakers|;
    if n > 0 {
      var prev := TrackAll(s, speakers[..n - 1]);
      WithinBudgetBeforeLast(s, speakers);
      TrackAllFrame(s, speakers[..n - 1]);
      OneTurnPastBudgetAtMost(prev, speakers[n - 1]);
    }
  }

  /** Once escalation is due it stays due: further tracking only raises counters. */
  lemma {:induction false} EscalationIsStable(s: State, speakers: seq<string>)
    requires BudgetExceeded(s)
    ensures BudgetExceeded(TrackAll(s, speakers))
  {
    TrackAllFrame(s, speakers);
    TrackAllCounts(s, speakers, s.opponentAName);
    TrackAllCounts(s, speakers, s.opponentBName);
  }
}

=== FILE: scenarios.dfy ===
/** Concrete debates between debaters "X" and "Y", checked against the status
    rules. */
module Scenarios {
  import opened Wrappers
  import opened DebateState
  import opened DebateTools
  import opened Rounds

  /** A fresh state for two debaters, as the driver seeds it. */
  function Fresh(totalRounds: Option<int>): State {
    State(map["X" := 0, "Y" := 0], NoSpeaker, totalRounds, "X", "Y", "theme", "rules", None)
  }

  /** Four alternating turns with two rounds each leave both counters at two
      and Y as the current speaker. */
  lemma {:induction false} FourAlternatingTurns()
    ensures var s4 := TrackAll(Fresh(Some(2)), ["X", "Y", "X", "Y"]);
      Turns(s4, "X") == 2 && Turns(s4, "Y") == 2 && s4.currentSpeaker == "Y"
      && SameSettings(Fresh(Some(2)), s4)
  {
    var s0 := Fresh(Some(2));
    TrackAllSnoc(s0, [], "X");
    assert [] + ["X"] == ["X"];
    TrackAllSnoc(s0, ["X"], "Y");
    assert ["X"] + ["Y"] == ["X", "Y"];
    TrackAllSnoc(s0, ["X", "Y"], "X");
    assert ["X", "Y"] + ["X"] == ["X", "Y", "X"];
    TrackAllSnoc(s0, ["X", "Y", "X"], "Y");
    assert ["X", "Y", "X"] + ["Y"] == ["X", "Y", "X", "Y"];
  }

  /** With two rounds each, the fifth tracked turn (X's third) escalates, while
      after the fourth the check still names Y. */
  lemma TwoRoundsEscalateOnThirdTurn()
    ensures CheckStatus(TrackAll(Fresh(Some(2)), ["X", "Y", "X", "Y"])) == HandoffToSpeaker("Y")
    ensures CheckStatus(TrackAll(Fresh(Some(2)), ["X", "Y", "X", "Y", "X"])) == HandoffToJudge
  {
    FourAlternatingTurns();
    TrackAllSnoc(Fresh(Some(2)), ["X", "Y", "X", "Y"], "X");
    assert ["X", "Y", "X", "Y"] + ["X"] == ["X", "Y", "X", "Y", "X"];
  }

  /** With one round, a single turn of X continues with X. */
  lemma OneRoundFirstTurnContinues()
    ensures CheckStatus(TrackAll(Fresh(Some(1)), ["X"])) == HandoffToSpeaker("X")
  {
  }

  /** Before any turn the check reports the missing state, whatever the budget. */
  lemma CheckBeforeAnyTurn(totalRounds: Option<int>)
    ensures CheckStatus(Fresh(totalRounds)) == StateMissing
  {
  }

  /** A tracked turn for a name with no counter seeds it, so the count is one. */
  lemma UnknownSpeakerStartsAtOne()
    ensures Turns(TrackAll(Fresh(Some(2)), ["Z"]), "Z") == 1
    ensures CheckStatus(TrackAll(Fresh(Some(2)), ["Z"])) == HandoffToSpeaker("Z")
  {
  }
}

=== FILE: setup.dfy ===
/** The driver's start-up: resolving settings from command-line overrides and
    configuration defaults, seeding the workflow state, and assembling the five
    agents into a workflow rooted at the introducer. */
module Setup {
  import opened Wrappers
  import opened DebateState
  import opened Agents
  import DebateTools
  import Tts

  /** Command-line overrides; `None` when a flag was not given. */
  datatype Overrides = Overrides(
    debateTheme: Option<string>,
    opponentAStance: Option<string>,
    opponentBStance: Option<string>,
    opponentAName: Option<string>,
    opponentATemperament: Option<string>,
    opponentBName: Option<string>,
    opponentBTemperament: Option<string>,
    totalRounds: Option<int>,
    debateRules: Option<string>,
    language: Option<string>)

  datatype DebateConfig = DebateConfig(
    debateTheme: string, opponentAStance: string, opponentBStance: string,
    totalRounds: int, debateRules: string, language: string, ttsModel: string)

  datatype OpponentConfig = OpponentConfig(defaultNameIdea: string, defaultTemperament: string, ttsVoice: string)

  /** The introducer's, mediator's or judge's configuration. */
  datatype AgentConfig = AgentConfig(defaultName: string, ttsVoice: string)

  datatype Configs = Configs(
    debate: DebateConfig, introduction: AgentConfig, opponentA: OpponentConfig,
    opponentB: OpponentConfig, mediator: AgentConfig, judge: AgentConfig)

  /** The resolved values the rest of the run sees. */
  datatype Settings = Settings(
    debateTheme: string, opponentAStance: string, opponentBStance: string,
    opponentAName: string, opponentATemperament: string,
    opponentBName: string, opponentBTemperament: string,
    totalRounds: int, debateRules: string, language: string)

  /** Python's `override or default` on strings: a missing or empty override
      falls back to the default. */
  function OrDefault(override: Option<string>, default: string): (r: string)
    ensures override.Some? && override.value != "" ==> r == override.value
    ensures override.None? || override.value == "" ==> r == default
  {
    match override
    case Some(v) => if v != "" then v else default
    case None => default
  }

  /** String settings use the truthiness fallback; the round count takes any
      given override, zero included. */
  function ResolveSettings(ov: Overrides, cfg: Configs): (st: Settings)
    ensures st.debateTheme == OrDefault(ov.debateTheme, cfg.debate.debateTheme)
    ensures st.opponentAStance == OrDefault(ov.opponentAStance, cfg.debate.opponentAStance)
    ensures st.opponentBStance == OrDefault(ov.opponentBStance, cfg.debate.opponentBStance)
    ensures st.opponentAName == OrDefault(ov.opponentAName, cfg.opponentA.defaultNameIdea)
    ensures st.opponentATemperament == OrDefault(ov.opponentATemperament, cfg.opponentA.defaultTemperament)
    ensures st.opponentBName == OrDefault(ov.opponentBName, cfg.opponentB.defaultNameIdea)
    ensures st.opponentBTemperament == OrDefault(ov.opponentBTemperament, cfg.opponentB.defaultTemperament)
    ensures ov.totalRounds.Some? ==> st.totalRounds == ov.totalRounds.value
    ensures ov.totalRounds.None? ==> st.totalRounds == cfg.debate.totalRounds
    ensures st.debateRules == OrDefault(ov.debateRules, cfg.debate.debateRules)
    ensures st.language == OrDefault(ov.language, cfg.debate.language)
  {
    Settings(
      OrDefault(ov.debateTheme, cfg.debate.debateTheme),
      OrDefault(ov.opponentAStance, cfg.debate.opponentAStance),
      OrDefault(ov.opponentBStance, cfg.debate.opponentBStance),
      OrDefault(ov.opponentAName, cfg.opponentA.defaultNameIdea),
      OrDefault(ov.opponentATemperament, cfg.opponentA.defaultTemperament),
      OrDefault(ov.opponentBName, cfg.opponentB.defaultNameIdea),
      OrDefault(ov.opponentBTemperament, cfg.opponentB.defaultTemperament),
      if ov.totalRounds.Some? then ov.totalRounds.value else cfg.debate.totalRounds,
      OrDefault(ov.debateRules, cfg.debate.debateRules),
      OrDefault(ov.language, cfg.debate.language))
  }

  /** An empty theme on the command line is no override at all, while a round
      count of zero is taken as given. */
  lemma EmptyOverrideFallsBackZeroRoundsKept(ov: Overrides, cfg: Configs)
    requires ov.debateTheme == Some("") && ov.totalRounds == Some(0)
    ensures ResolveSettings(ov, cfg).debateTheme == cfg.debate.debateTheme
    ensures ResolveSettings(ov, cfg).totalRounds == 0
  {
  }

  /** The names of the five agents, in the order the workflow lists them:
      introducer, debater A, debater B, mediator, judge. */
  function AgentNames(st: Settings, cfg: Configs): seq<string> {
    [cfg.introduction.defaultName, st.opponentAName, st.opponentBName, cfg.mediator.defaultName, cfg.judge.defaultName]
  }

  /** No two agents share a name. */
  predicate DistinctNames(names: seq<string>) {
    forall i, j :: 0 <= i < j < |names| ==> names[i] != names[j]
  }

  /** One voice per agent, keyed by agent name. On a name clash the entry written
      later wins, as in a dictionary display. */
  function Voices(st: Settings, cfg: Configs): map<string, string> {
    map[cfg.introduction.defaultName := cfg.introduction.ttsVoice]
      [st.opponentAName := cfg.opponentA.ttsVoice]
      [st.opponentBName := cfg.opponentB.ttsVoice]
      [cfg.judge.defaultName := cfg.judge.ttsVoice]
      [cfg.mediator.defaultName := cfg.mediator.ttsVoice]
  }

  lemma FiveDistinct(a: string, b: string, c: string, d: string, e: string)
    requires a != b && a != c && a != d && a != e && b != c && b != d && b != e
    requires c != d && c != e && d != e
    ensures |{a, b, c, d, e}| == 5
  {
  }

  /** With distinct names the voices map has exactly five entries and each agent
      finds its own configured voice. */
  lemma VoicesOnePerAgent(st: Settings, cfg: Configs)
    requires DistinctNames(AgentNames(st, cfg))
    ensures |Voices(st, cfg)| == 5
    ensures Voices(st, cfg).Keys == set n | n in AgentNames(st, cfg)
    ensures Voices(st, cfg)[cfg.introduction.defaultName] == cfg.introduction.ttsVoice
    ensures Voices(st, cfg)[st.opponentAName] == cfg.opponentA.ttsVoice
    ensures Voices(st, cfg)[st.opponentBName] == cfg.opponentB.ttsVoice
    ensures Voices(st, cfg)[cfg.mediator.defaultName] == cfg.mediator.ttsVoice
    ensures Voices(st, cfg)[cfg.judge.defaultName] == cfg.judge.ttsVoice
  {
    var names := AgentNames(st, cfg);
    assert names[0] != names[1] && names[0] != names[2] && names[0] != names[3] && names[0] != names[4];
    assert names[1] != names[2] && names[1] != names[3] && names[1] != names[4];
    assert names[2] != names[3] && names[2] != names[4] && names[3] != names[4];
    var keys := Voices(st, cfg).Keys;
    assert keys == {names[0], names[1], names[2], names[3], names[4]};
    FiveDistinct(names[0], names[1], names[2], names[3], names[4]);
  }

  /** The state the run starts from: both debaters at zero turns, nobody
      speaking yet, and the settings copied unchanged. */
  function InitialState(st: Settings, cfg: Configs): (s: State)
    ensures s.turns.Keys == {st.opponentAName, st.opponentBName}
    ensures Turns(s, st.opponentAName) == 0 && Turns(s, st.opponentBName) == 0
    ensures s.currentSpeaker == NoSpeaker
    ensures s.totalRounds == Some(st.totalRounds) && Budget(s) == st.totalRounds
    ensures s.opponentAName == st.opponentAName && s.opponentBName == st.opponentBName
    ensures s.debateTheme == st.debateTheme && s.debateRules == st.debateRules
    ensures s.ttsConfig == Some(TtsConfig(Some(cfg.debate.ttsModel), Some(Voices(st, cfg))))
  {
    State(map[st.opponentAName := 0][st.opponentBName := 0], NoSpeaker, Some(st.totalRounds),
          st.opponentAName, st.opponentBName, st.debateTheme, st.debateRules,
          Some(TtsConfig(Some(cfg.debate.ttsModel), Some(Voices(st, cfg)))))
  }

  /** A status check before any turn has been tracked reports the missing state. */
  lemma InitialCheckReportsMissingState(st: Settings, cfg: Configs)
    ensures DebateTools.CheckStatus(InitialState(st, cfg)) == DebateTools.StateMissing
  {
  }

  /** The debaters' names in the initial state are non-empty exactly when the
      override or, failing that, the configured name is. A non-empty name is
      what the status check's identity test asks for. */
  lemma ResolvedNamesNonEmptyIff(ov: Overrides, cfg: Configs)
    ensures InitialState(ResolveSettings(ov, cfg), cfg).opponentAName != ""
      <==> (ov.opponentAName.Some? && ov.opponentAName.value != "") || cfg.opponentA.defaultNameIdea != ""
    ensures InitialState(ResolveSettings(ov, cfg), cfg).opponentBName != ""
      <==> (ov.opponentBName.Some? && ov.opponentBName.value != "") || cfg.opponentB.defaultNameIdea != ""
  {
  }

  /** A round override of zero reaches the status check: the first tracked turn
      of a named debater already escalates to the judge. */
  lemma ZeroRoundsEscalateOnFirstTurn(ov: Overrides, cfg: Configs)
    requires ov.totalRounds == Some(0)
    requires ResolveSettings(ov, cfg).opponentAName != "" && ResolveSettings(ov, cfg).opponentAName != NoSpeaker
    requires ResolveSettings(ov, cfg).opponentBName != ""
    ensures var st := ResolveSettings(ov, cfg);
      DebateTools.CheckStatus(DebateTools.TrackTurn(InitialState(st, cfg), st.opponentAName).state)
        == DebateTools.HandoffToJudge
  {
  }

  /** In the initial state each of the five agents speaks with the configured
      model and its own configured voice; any other name gets the fallback
      voice. */
  lemma InitialSpeechParams(st: Settings, cfg: Configs, other: string)
    requires DistinctNames(AgentNames(st, cfg))
    requires other !in AgentNames(st, cfg)
    ensures var s := InitialState(st, cfg);
      && Tts.ParamsFor(s, cfg.introduction.defaultName) == Tts.TtsParams(cfg.debate.ttsModel, cfg.introduction.ttsVoice)
      && Tts.ParamsFor(s, st.opponentAName) == Tts.TtsParams(cfg.debate.ttsModel, cfg.opponentA.ttsVoice)
      && Tts.ParamsFor(s, st.opponentBName) == Tts.TtsParams(cfg.debate.ttsModel, cfg.opponentB.ttsVoice)
      && Tts.ParamsFor(s, cfg.mediator.defaultName) == Tts.TtsParams(cfg.debate.ttsModel, cfg.mediator.ttsVoice)
      && Tts.ParamsFor(s, cfg.judge.defaultName) == Tts.TtsParams(cfg.debate.ttsModel, cfg.judge.ttsVoice)
      && Tts.ParamsFor(s, other) == Tts.TtsParams(cfg.debate.ttsModel, Tts.FallbackVoice)
  {
    VoicesOnePerAgent(st, cfg);
  }

  datatype Workflow = Workflow(agents: seq<Agent>, rootAgent: string, initialState: State)

  datatype StartupError = ValueError(message: string)

  const MissingKeyMessage: string := "GOOGLE_API_KEY environment variable not set for Gemini."

  /** The workflow the driver assembles: introducer, debater A, debater B,
      mediator and judge, in that order, rooted at the introducer. */
  predicate Assembled(w: Workflow, st: Settings, cfg: Configs, mediatorSpeechEnabled: bool) {
    && |w.agents| == 5
    && w.agents[0] == CreateIntroduction(cfg.introduction.defaultName)
    && w.agents[1].name == st.opponentAName
    && w.agents[1].tools == [RecordStatementTool]
    && w.agents[1].canHandoffTo == [MediatorHandoffName]
    && w.agents[2].name == st.opponentBName
    && w.agents[2].tools == [RecordStatementTool]
    && w.agents[2].canHandoffTo == [MediatorHandoffName]
    && w.agents[3] == CreateMediator(cfg.mediator.defaultName, st.opponentAName, st.opponentBName, cfg.judge.defaultName, mediatorSpeechEnabled)
    && w.agents[4] == CreateJudge(cfg.judge.defaultName)
    && w.rootAgent == cfg.introduction.defaultName
    && w.initialState == InitialState(st, cfg)
  }

  /** A debater built from the driver's role text; building it cannot fail. */
  function DriverOpponent(name: string, stance: string, debateTheme: string): (a: Agent)
    ensures a.name == name && a.tools == [RecordStatementTool] && a.canHandoffTo == [MediatorHandoffName]
  {
    CreateOpponentFromRoleSucceeds(name, stance, debateTheme);
    CreateOpponentCorrected(name, RoleDescription(stance, debateTheme)).value
  }

  /** Builds the five agents and the initial state from resolved settings. */
  function BuildWorkflow(st: Settings, cfg: Configs, mediatorSpeechEnabled: bool): (w: Workflow)
    ensures Assembled(w, st, cfg, mediatorSpeechEnabled)
  {
    var intro := CreateIntroduction(cfg.introduction.defaultName);
    var a := DriverOpponent(st.opponentAName, st.opponentAStance, st.debateTheme);
    var b := DriverOpponent(st.opponentBName, st.opponentBStance, st.debateTheme);
    var judge := CreateJudge(cfg.judge.defaultName);
    var mediator := CreateMediator(cfg.mediator.defaultName, a.name, b.name, judge.name, mediatorSpeechEnabled);
    Workflow([intro, a, b, mediator, judge], intro.name, InitialState(st, cfg))
  }

  /** The whole start-up. A missing or empty reasoning-backend key is fatal
      before any state is built; otherwise the workflow is always assembled. */
  function Launch(apiKey: Option<string>, ov: Overrides, cfg: Configs, mediatorSpeechEnabled: bool): (r: Result<Workflow, StartupError>)
    ensures r.Failure? <==> apiKey.None? || apiKey.value == ""
    ensures r.Failure? ==> r.error == ValueError(MissingKeyMessage)
    ensures r.Success? ==> Assembled(r.value, ResolveSettings(ov, cfg), cfg, mediatorSpeechEnabled)
  {
    if apiKey.None? || apiKey.value == "" then Failure(ValueError(MissingKeyMessage))
    else Success(BuildWorkflow(ResolveSettings(ov, cfg), cfg, mediatorSpeechEnabled))
  }

  function Names(agents: seq<Agent>): seq<string> {
    seq(|agents|, i requires 0 <= i < |agents| => agents[i].name)
  }

  /** Every hand-off target of every agent names an agent of the workflow. */
  predicate HandoffsResolve(w: Workflow) {
    forall i, t :: 0 <= i < |w.agents| && t in w.agents[i].canHandoffTo ==> t in Names(w.agents)
  }

  /** The assembled workflow holds the five agents under their resolved names,
      and its root is the introducer. */
  lemma AssembledNames(w: Workflow, st: Settings, cfg: Configs, speech: bool)
    requires Assembled(w, st, cfg, speech)
    ensures Names(w.agents) == AgentNames(st, cfg)
    ensures w.rootAgent == Names(w.agents)[0]
  {
  }

  /** The hand-off graph is closed exactly when some agent is called
      "MediatorAgent": the mediator's own targets are always agents of the
      workflow, while the introducer and both debaters hand off to that literal. */
  lemma HandoffsResolveIff(w: Workflow, st: Settings, cfg: Configs, speech: bool)
    requires Assembled(w, st, cfg, speech)
    ensures HandoffsResolve(w) <==> MediatorHandoffName in Names(w.agents)
  {
    var names := Names(w.agents);
    if HandoffsResolve(w) {
      assert MediatorHandoffName in w.agents[0].canHandoffTo;
    } else {
      var i, t :| 0 <= i < |w.agents| && t in w.agents[i].canHandoffTo && t !in names;
      assert names[1] == st.opponentAName && names[2] == st.opponentBName && names[4] == cfg.judge.defaultName;
      assert i != 3 && i != 4;
      assert t == MediatorHandoffName;
    }
  }

  /** When the configured mediator name is "MediatorAgent" and names are
      distinct, control flows from the root to every agent: the introducer and
      the debaters reach the mediator, which reaches both debaters and the judge
      but never itself or the introducer. The judge hands off to nobody. */
  lemma CoordinatorGraph(w: Workflow, st: Settings, cfg: Configs, speech: bool)
    requires Assembled(w, st, cfg, speech)
    requires cfg.mediator.defaultName == MediatorHandoffName
    requires DistinctNames(AgentNames(st, cfg))
    ensures HandoffsResolve(w)
    ensures w.agents[0].canHandoffTo == [w.agents[3].name]
    ensures w.agents[1].canHandoffTo == [w.agents[3].name]
    ensures w.agents[2].canHandoffTo == [w.agents[3].name]
    ensures w.agents[3].canHandoffTo == [w.agents[1].name, w.agents[2].name, w.agents[4].name]
    ensures w.agents[3].name !in w.agents[3].canHandoffTo
    ensures w.rootAgent !in w.agents[3].canHandoffTo
    ensures w.agents[4].canHandoffTo == []
  {
    var names := AgentNames(st, cfg);
    assert names[3] != names[1] && names[3] != names[2] && names[3] != names[4];
    assert names[0] != names[1] && names[0] != names[2] && names[0] != names[4];
    HandoffsResolveIff(w, st, cfg, speech);
    assert Names(w.agents)[3] == MediatorHandoffName;
  }
}

=== FILE: state.dfy ===
/** The shared workflow state: one record per debate run, read by every tool and
    written only by turn tracking. */
module DebateState {
  import opened Wrappers

  /** Speech-renderer settings: a model identifier and a voice per agent name.
      Either key may be missing from the configuration mapping. */
  datatype TtsConfig = TtsConfig(model: Option<string>, voices: Option<map<string, string>>)

  /** The workflow state. `turns` holds the per-speaker counters (the source
      keys them as "<name>_turns"; the suffix is fixed, so keying by name is the
      same map). A string key that is absent from the source's dictionary reads
      as "" there, so it is stored as "" here; an absent `total_rounds` is
      `None`, an absent `tts_config` is `None`. */
  datatype State = State(
    turns: map<string, int>,
    currentSpeaker: string,
    totalRounds: Option<int>,
    opponentAName: string,
    opponentBName: string,
    debateTheme: string,
    debateRules: string,
    ttsConfig: Option<TtsConfig>)

  /** The value of `current_speaker` before any turn has been tracked. */
  const NoSpeaker: string := "none"

  /** The round budget assumed when the state has none. */
  const DefaultRounds: int := 1

  /** A speaker's counter; a missing counter reads as 0. */
  function Turns(s: State, speaker: string): int {
    if speaker in s.turns then s.turns[speaker] else 0
  }

  /** The round budget, `total_rounds`, read as 1 when it is missing. */
  function Budget(s: State): int {
    s.totalRounds.GetOr(DefaultRounds)
  }

  /** A debater whose counter is beyond the budget has been picked for a turn
      they are not entitled to. */
  predicate Exhausted(s: State, speaker: string) {
    Turns(s, speaker) > Budget(s)
  }

  /** `t` agrees with `s` on everything turn tracking must leave alone. */
  predicate SameSettings(s: State, t: State) {
    && t.totalRounds == s.totalRounds
    && t.opponentAName == s.opponentAName
    && t.opponentBName == s.opponentBName
    && t.debateTheme == s.debateTheme
    && t.debateRules == s.debateRules
    && t.ttsConfig == s.ttsConfig
  }
}

=== FILE: text.dfy ===
/** The two Python string operations the core relies on: `str.strip()` with no
    argument (used to decide whether there is anything to speak) and
    `str.split(' ')` with an explicit separator (used to pick the stance token). */
module Text {

  /** Python's `str.isspace()` for one character: the characters `str.strip()`
      removes when called without an argument. */
  predicate IsSpace(c: char) {
    || c == ' ' || c == '\t' || c == '\n' || c == '\r'
    || c == '\U{B}' || c == '\U{C}'
    || ('\U{1C}' <= c <= '\U{1F}')
    || c == '\U{85}' || c == '\U{A0}' || c == '\U{1680}'
    || ('\U{2000}' <= c <= '\U{200A}')
    || c == '\U{2028}' || c == '\U{2029}' || c == '\U{202F}' || c == '\U{205F}' || c == '\U{3000}'
  }

  /** `s.lstrip()`: the longest suffix of `s` that does not start with whitespace. */
  function TrimLeft(s: string): (r: string)
    ensures |r| <= |s| && r == s[|s| - |r|..]
    ensures forall i :: 0 <= i < |s| - |r| ==> IsSpace(s[i])
    ensures |r| > 0 ==> !IsSpace(r[0])
  {
    if |s| > 0 && IsSpace(s[0]) then TrimLeft(s[1..]) else s
  }

  /** `s.rstrip()`: the longest prefix of `s` that does not end with whitespace. */
  function TrimRight(s: string): (r: string)
    ensures |r| <= |s| && r == s[..|r|]
    ensures forall i :: |r| <= i < |s| ==> IsSpace(s[i])
    ensures |r| > 0 ==> !IsSpace(r[|r| - 1])
  {
    if |s| > 0 && IsSpace(s[|s| - 1]) then TrimRight(s[..|s| - 1]) else s
  }

  function Strip(s: string): string {
    TrimRight(TrimLeft(s))
  }

  /** A text is blank when `text.strip()` is the empty string. */
  predicate IsBlank(s: string) {
    Strip(s) == []
  }

  /** Stripping leaves nothing exactly when every character is whitespace. */
  lemma BlankIffAllSpace(s: string)
    ensures IsBlank(s) <==> forall i :: 0 <= i < |s| ==> IsSpace(s[i])
  {
    var l := TrimLeft(s);
    if forall i :: 0 <= i < |s| ==> IsSpace(s[i]) {
    } else {
      var i :| 0 <= i < |s| && !IsSpace(s[i]);
      assert |l| > 0;
      assert l[0] == s[|s| - |l|];
      assert TrimRight(l) != [];
    }
  }

  /** The position of the first `sep` in `s`, when there is one. */
  function FirstIndex(s: string, sep: char): (i: nat)
    requires sep in s
    ensures i < |s| && s[i] == sep && sep !in s[..i]
  {
    if s[0] == sep then 0 else 1 + FirstIndex(s[1..], sep)
  }

  /** `s.split(sep)` with an explicit separator: every occurrence of `sep` cuts,
      adjacent separators yield empty pieces, and there is always one piece more
      than there are separators (`SplitCount`), and no piece holds the
      separator (`SplitPiecesFreeOfSep`). */
  function Split(s: string, sep: char): (parts: seq<string>)
    ensures |parts| >= 1
    decreases |s|
  {
    if sep !in s then [s]
    else
      var i := FirstIndex(s, sep);
      assert s == s[..i] + [sep] + s[i + 1..];
      [s[..i]] + Split(s[i + 1..], sep)
  }

  /** `sep.join(parts)`. */
  function Join(parts: seq<string>, sep: char): string
    requires |parts| > 0
  {
    if |parts| == 1 then parts[0] else parts[0] + [sep] + Join(parts[1..], sep)
  }

  /** Splitting loses nothing: joining the pieces back gives the original text. */
  lemma {:induction false} JoinSplit(s: string, sep: char)
    ensures Join(Split(s, sep), sep) == s
    decreases |s|
  {
    if sep in s {
      var i := FirstIndex(s, sep);
      JoinSplit(s[i + 1..], sep);
      assert s == s[..i] + [sep] + s[i + 1..];
    }
  }

  /** There is one piece more than there are separators. */
  lemma {:induction false} SplitCount(s: string, sep: char)
    ensures |Split(s, sep)| == multiset(s)[sep] + 1
    decreases |s|
  {
    if sep in s {
      var i := FirstIndex(s, sep);
      SplitCount(s[i + 1..], sep);
      assert s == s[..i] + [sep] + s[i + 1..];
    }
  }

  lemma {:induction false} SplitPiecesFreeOfSep(s: string, sep: char)
    ensures forall k :: 0 <= k < |Split(s, sep)| ==> sep !in Split(s, sep)[k]
    decreases |s|
  {
    if sep in s {
      var i := FirstIndex(s, sep);
      SplitPiecesFreeOfSep(s[i + 1..], sep);
    }
  }

  /** A word free of the separator followed by the separator is the first piece. */
  lemma SplitAfterWord(w: string, sep: char, rest: string)
    requires sep !in w
    ensures Split(w + [sep] + rest, sep) == [w] + Split(rest, sep)
  {
    var s := w + [sep] + rest;
    assert s[|w|] == sep;
    assert s[..|w|] == w;
    var i := FirstIndex(s, sep);
    assert i == |w|;
    assert s[i + 1..] == rest;
  }

  /** Two separator-free words, each followed by the separator, come first. */
  lemma SplitAfterTwoWords(w1: string, w2: string, sep: char, rest: string)
    requires sep !in w1 && sep !in w2
    ensures Split(w1 + [sep] + (w2 + [sep] + rest), sep) == [w1, w2] + Split(rest, sep)
  {
    SplitAfterWord(w2, sep, rest);
    SplitAfterWord(w1, sep, w2 + [sep] + rest);
    assert [w1] + ([w2] + Split(rest, sep)) == [w1, w2] + Split(rest, sep);
  }

  /** Three separator-free words, each followed by the separator, come first. */
  lemma SplitAfterThreeWords(w1: string, w2: string, w3: string, sep: char, rest: string)
    requires sep !in w1 && sep !in w2 && sep !in w3
    ensures Split(w1 + [sep] + (w2 + [sep] + (w3 + [sep] + rest)), sep) == [w1, w2, w3] + Split(rest, sep)
  {
    var tail := w3 + [sep] + rest;
    SplitAfterTwoWords(w2, w3, sep, rest);
    SplitAfterWord(w1, sep, w2 + [sep] + tail);
    assert [w1] + ([w2, w3] + Split(rest, sep)) == [w1, w2, w3] + Split(rest, sep);
  }
}

=== FILE: tts.dfy ===
/** The parts of the speech helper that decide anything: which model and voice
    an agent speaks with, and whether a request is made at all. */
module Tts {
  import opened Wrappers
  import opened DebateState
  import Text

  const FallbackModel: string := "gpt-4o-mini-tts"
  const FallbackVoice: string := "alloy"

  datatype TtsParams = TtsParams(model: string, voice: string)

  /** The state names a voice for this agent. */
  predicate VoiceConfigured(s: State, agentName: string) {
    s.ttsConfig.Some? && s.ttsConfig.value.voices.Some? && agentName in s.ttsConfig.value.voices.value
  }

  /** `get_tts_params_from_state`: the configured model and the agent's voice,
      each falling back to a fixed default when absent. A missing `tts_config`
      behaves like an empty one. */
  function ParamsFor(s: State, agentName: string): (p: TtsParams)
    ensures s.ttsConfig.Some? && s.ttsConfig.value.model.Some? ==> p.model == s.ttsConfig.value.model.value
    ensures s.ttsConfig.None? || s.ttsConfig.value.model.None? ==> p.model == FallbackModel
    ensures VoiceConfigured(s, agentName) ==> p.voice == s.ttsConfig.value.voices.value[agentName]
    ensures !VoiceConfigured(s, agentName) ==> p.voice == FallbackVoice
  {
    var config := s.ttsConfig.GetOr(TtsConfig(None, None));
    var voices := config.voices.GetOr(map[]);
    TtsParams(config.model.GetOr(FallbackModel), if agentName in voices then voices[agentName] else FallbackVoice)
  }

  /** The early-return guard of `speak_text`: a request reaches the renderer only
      when a client exists and the text is not blank after stripping. */
  predicate ShouldSpeak(clientPresent: bool, text: string) {
    clientPresent && !Text.IsBlank(text)
  }

  /** A request is made exactly when there is a client and some character of the
      text is not whitespace. */
  lemma ShouldSpeakIffVisibleText(clientPresent: bool, text: string)
    ensures ShouldSpeak(clientPresent, text) <==>
      clientPresent && exists i :: 0 <= i < |text| && !Text.IsSpace(text[i])
  {
    Text.BlankIffAllSpace(text);
  }
}

=== FILE: wrappers.dfy ===
/** Failure-carrying values used across the model: an absent dictionary key
    or keyword argument is `None`, a raised Python exception is `Failure`. */
module Wrappers {

  datatype Option<+T> = None | Some(value: T) {

    /** The wrapped value, or `default` when absent (Python's `d.get(k, default)`). */
    function GetOr(default: T): T {
      match this
      case Some(v) => v
      case None => default
    }
  }

  datatype Result<+T, +E> = Success(value: T) | Failure(error: E)
}
